=== FILE: README.md ===
# AI chat provider: handler registry and subscription lifecycle

This project models the subscription layer of a React component library.
The library lets several UI consumers share one chat session. Each consumer
subscribes to any of four session callbacks: `onFinish`, `onError`,
`onResponse` and `onToolCall`. The model covers:

- **The registry.** `HandlersSets` holds one insertion-ordered JavaScript
  `Set` of handler identities per callback name. There is a single
  module-level instance, `initialHandlers`.
- **The consumer hook `useAiChat`.** Outside a provider it throws.
  Otherwise its effect adds each supplied handler to the set of its kind.
  The effect's cleanup holds the caller's `args` object. It deletes the
  handlers that object holds when the cleanup runs.
- **The provider `AiChatProvider`.** It hands `useChat` four dispatchers.
  Each one reads the registry when it is called. It then calls the handlers
  of its kind one after another, in set order. `onResponse` and
  `onToolCall` await each handler. There is no try/catch.
- **The provider's ref.** Each provider instance holds a `handlers` ref.
  `useRef(initialHandlers)` makes it hold the module-level object, and the
  effect on `value` assigns it that object again.

Modules:

| Module | File | Contents |
|---|---|---|
| `OrderedSets` | `ordered_set.dfy` | A JavaScript `Set` as a duplicate-free sequence. `Add` appends an absent element. `Delete` removes an element and keeps the order of the rest. |
| `Registry` | `registry.dfy` | The four sets, and the empty initial registry. |
| `Consumer` | `use_ai_chat.dfy` | `useAiChat`: the no-provider error, the mount effect and its cleanup. |
| `ArgsAliasing` | `args_aliasing.dfy` | The `args` object as a mutable object: one hook as the code is written, where the cleanup reads the object when it runs, and a corrected hook, where the cleanup deletes what its effect added. |
| `Provider` | `provider.dfy` | The dispatch loop, as a recursive function and as a `while` loop. The provider's `handlers` ref and its value-change effect. |
| `Traces` | `traces.dfy` | Runs of a deterministic state machine over a sequence of events. |
| `Lifecycle` | `lifecycle.dfy` | Lifecycle traces over the providers' refs and the one registry object, and the properties stated over them. |
| `Wrappers` | `wrappers.dfy` | `Option` and `Result`. |

The state of a trace is the contents of the one `HandlersSets` object,
`initialHandlers`, together with two maps. The first maps each provider
instance to the object identity its ref holds. The second maps each mounted
consumer to what its cleanup captured: its handlers, and the registry
reference it read from the context. A trace is made of five kinds of event:

- `ProviderRender(provider)`. The first render creates the provider's ref
  and runs its effect.
- `ValueChange(provider)`. The provider's `value` prop changes, so its
  effect runs again.
- `Render(consumer, inside, args)`. The consumer renders inside the given
  provider, or outside any. The effect runs on a consumer's first render,
  and again whenever one of its four handler identities changes. This
  follows the dependency list of the effect. A re-run first runs the
  previous cleanup.
- `Unmount(consumer)`. The consumer's last cleanup runs.
- `Emit(provider, kind, behaviour)`. The provider's `useChat` calls its
  dispatcher of `kind`. The `behaviour` parameter says how each handler call
  ends in that pass:
  - it returns a value;
  - it throws synchronously;
  - it returns a promise that rejects.

A handler throw stops the loop of any dispatcher. A rejection stops only the
loops that await their handlers.

Handlers are an opaque type with equality, because a JavaScript `Set` keys on
reference identity. Two consumers that register the same function share one
entry. The first of them to unmount removes that entry for both
(`Lifecycle.SharedHandlerRemovedByEitherUnmount`).

The model follows the code in `src/index.tsx` where the repository's own
comments and tests expect something else:

- **Reset on value change.** The comment on the provider's effect
  (`src/index.tsx:89`) says the handlers need to be reset when `value`
  changes. The effect only assigns the ref `handlers.current` the
  module-level `initialHandlers` object. Every ref already holds that object
  (`Lifecycle.EveryRefIsInitialHandlers`), so the assignment changes nothing
  (`Provider.ResetIsNoOp`). Registrations therefore survive a value change
  (`Lifecycle.ValueChangeIsInvisible`). For the same reason every provider
  instance reads and writes one registry
  (`Lifecycle.ProvidersShareRegistry`).
- **Tool calls.** The tests in `src/index.test.tsx:114-262` pass
  `onToolCall` a `Map` from tool name to handler. They expect a tool call to
  reach only the handler for its `toolName`. They also expect the error
  `Multiple handlers registered for tool "test-tool"`. `src/index.tsx`
  implements none of this. `onToolCall` handlers sit in a plain set and are
  dispatched like the other kinds. The provider's `onToolCall` returns
  nothing (`Provider.DispatchIgnoresReturnedValues`).

## Model

| member | source | states |
|---|---|---|
| OrderedSets.Add | src/index.tsx:38-49 | `Set.add`: the element is present afterwards, and nothing else is added. The old iteration order is a prefix of the new one. Adding an element that is already present changes nothing, not even its position. No duplicates are introduced. |
| OrderedSets.Delete | src/index.tsx:51-64 | `Set.delete`: the element is gone, and every other element stays. The result is a subsequence, so the survivors keep their relative order. Deleting an absent element changes nothing. No duplicates are introduced. |
| OrderedSets.DeleteUndoesAdd | src/index.tsx:38-63 | Adding an absent element and then deleting it gives back exactly the original set, order included. |
| OrderedSets.AddIdempotent | src/index.tsx:39 | Adding the same handler twice is the same as adding it once. |
| OrderedSets.DeleteIdempotent | src/index.tsx:53 | Deleting the same handler twice is the same as deleting it once. |
| OrderedSets.SubsequenceDetermined | src/index.tsx:51-64 | In a duplicate-free set, an ordered subsequence is determined by its elements. So the contract of `Delete` fixes its result uniquely. |
| Registry.InitialHandlers | src/index.tsx:70-75 | The module-level registry starts with four empty sets, and it is valid. |
| Consumer.NoHandlers | src/index.tsx:29 | The default argument `{}` supplies no handler of any kind. |
| Lifecycle.RenderWithNoHandlersRegistersNothing | src/index.tsx:29-50 | A consumer's first render with the default argument `{}` leaves the registry as it was, inside a provider or not. |
| Consumer.UseAiChat | src/index.tsx:29-34 | The hook fails exactly when there is no provider context. The failure carries the message "useAiChat must be used within a AiChatProvider". Otherwise it returns the chat of the context's provider. |
| Consumer.AddIfSupplied | src/index.tsx:38-40 | A supplied handler ends up in the set of its kind. The old set is a prefix of the new one. Nothing but that handler is added. A handler that is already present leaves the set unchanged. When no handler is supplied, the set is unchanged. No duplicates are introduced. |
| Consumer.DeleteIfSupplied | src/index.tsx:52-54 | A supplied handler is absent afterwards. Every other element stays, in its order, and nothing is added. When no handler is supplied, the set is unchanged. No duplicates are introduced. |
| Consumer.Mount | src/index.tsx:37-50 | A supplied kind's set becomes `Add` of its handler. A kind that is not supplied keeps its set. Validity is preserved. |
| Consumer.Cleanup | src/index.tsx:51-64 | A supplied kind's set becomes `Delete` of the captured handler, and that handler is then absent. Kinds that are not supplied are untouched. Validity is preserved. |
| Consumer.CleanupUndoesMount | src/index.tsx:37-64 | When none of the supplied handlers was registered, the cleanup after the mount restores the registry exactly. |
| ArgsAliasing.MountHook | src/index.tsx:37-50 | The first render adds each supplied handler to the set of its kind with `Set.add`, and leaves the other kinds alone. Validity is preserved. The hook remembers the rendered handlers as its dependencies. |
| ArgsAliasing.ReRenderAsWritten | src/index.tsx:37-65 | With the same four dependency values nothing runs. Otherwise each new handler is present afterwards. Each handler the object now holds and does not supply again for its kind is gone. A kind neither names keeps its set. A handler the previous render registered that the object no longer names stays registered: this is the leak. |
| ArgsAliasing.UnmountAsWritten | src/index.tsx:51-64 | Each kind the object holds now becomes `Set.delete` of that handler, and every other kind is untouched. A handler the last effect registered that the object no longer names stays registered. |
| ArgsAliasing.ReRenderSnapshot | src/index.tsx:37-65 | The corrected re-render: each new handler is present afterwards, and each handler of the previous render that is not supplied again for its kind is gone. Every other registered handler stays. |
| ArgsAliasing.UnmountSnapshot | src/index.tsx:51-64 | The corrected unmount: each kind the last render supplied becomes `Set.delete` of that handler. Every other handler and kind stays. |
| ArgsAliasing.SnapshotIgnoresWrites | src/index.tsx:51-65 | The corrected hook's re-render and unmount do not depend on what the caller writes into the args object after the render. |
| ArgsAliasing.AsWrittenAgreesWithoutWrites | src/index.tsx:37-65 | When nobody writes into the args object after its render, the code as written and the corrected hook give the same re-render and the same unmount. |
| ArgsAliasing.AsWrittenLeaks | src/index.tsx:37-65 | A consumer renders with `f1`. The caller then writes `f2` into the same args object and renders again. The set becomes [f1, f2]. After the unmount it is [f1], so `f1` is never removed. |
| ArgsAliasing.SnapshotRestores | src/index.tsx:37-65 | With the corrected hook, a mount, a re-render and the unmount restore the registry exactly, whatever the caller wrote into the args object. This needs the handlers of both renders to be unregistered beforehand. |
| ArgsAliasing.SnapshotRemovesAll | src/index.tsx:37-65 | With the corrected hook, no handler that either render supplied is left after the unmount, whatever the caller wrote into the args object. |
| Consumer.CleanupRemovesPreexisting | src/index.tsx:37-64 | A handler that was already registered is not moved by the mount. It is still removed by the cleanup. |
| Provider.Visit | src/index.tsx:101-104 | The `for ... of` loop calls handlers in set order, so the called handlers form a prefix of the set. The pass completes if and only if no handler stops it, and then every handler was called. When it fails, the culprit is the last handler called, and none before it stopped the loop. |
| Provider.Dispatch | src/index.tsx:96-115 | A dispatcher calls a prefix of its own kind's set. When it completes, it has called the whole set. |
| Provider.DispatchLoop | src/index.tsx:111-115 | The loop that calls one handler per step and leaves at the first stopping handler computes exactly the pass that `Dispatch` defines. |
| Provider.DispatchCompletes | src/index.tsx:96-115 | When no handler stops the pass, the dispatcher calls the whole set of its kind in insertion order and completes. |
| Provider.DispatchVisitsEachOnce | src/index.tsx:101-104 | For a valid registry where no handler stops the pass, each registered handler of the kind is called exactly once, in insertion order. |
| Provider.DispatchReadsOwnKindOnly | src/index.tsx:96-115 | A pass depends only on the set of its own kind, so it never calls handlers of other kinds. |
| Provider.DispatchIgnoresReturnedValues | src/index.tsx:111-115 | The values that handlers return never reach the dispatcher's result. The provider's `onToolCall` hands no tool result back. |
| Provider.UnawaitedPassIgnoresRejection | src/index.tsx:96-105 | `onFinish` and `onError` do not await. When no handler throws, every handler is called even if some reject. |
| Provider.PassStopsAtFirstFailure | src/index.tsx:106-115 | There is no try/catch, so the first stopping handler ends the pass. The handlers after it are not called. |
| Provider.UseRef | src/index.tsx:87 | The first render of a provider creates its ref, holding `initialHandlers`. A later render keeps every ref as it was. When every ref holds `initialHandlers`, that stays so. |
| Provider.ResetOnValueChange | src/index.tsx:89-92 | The effect makes the provider's own ref hold `initialHandlers`. It assigns no other provider's ref, and it keeps the set of providers. |
| Provider.ResetIsNoOp | src/index.tsx:87-92 | When every ref already holds `initialHandlers`, the effect changes no ref at all. |
| Lifecycle.Start | src/index.tsx:70-75 | At program start, all four sets are empty, the registry is valid, and no provider or consumer is mounted. |
| Lifecycle.Step | src/index.tsx:29-128 | One event keeps the registry valid. It keeps every ref and every captured reference on `initialHandlers`, and then the only error it can throw is the no-provider error. Only renders and unmounts of consumers change the registry or the mounted consumers. Only an `Emit` dispatches. An `Emit` of a mounted provider dispatches over the registry's current sets and changes nothing. |
| Lifecycle.RunKeepsValid | src/index.tsx:18-20 | Along any trace, no set ever holds the same handler twice. |
| Lifecycle.RunKeepsShared | src/index.tsx:87-92 | Along any trace that starts with every reference on `initialHandlers`, they all stay there. No event reads a set through a reference to no object. |
| Lifecycle.EveryRefIsInitialHandlers | src/index.tsx:70-92 | After any trace from program start, every provider's ref and every reference a consumer captured is `initialHandlers`. |
| Lifecycle.ProvidersShareRegistry | src/index.tsx:87-123 | The dispatchers of any two mounted providers call the same handlers. A consumer's render registers the same way inside either provider. |
| Lifecycle.ValueChangeKeepsState | src/index.tsx:89-92 | On any state reachable from program start, a value change changes nothing. |
| Lifecycle.RenderOutsideProviderRegistersNothing | src/index.tsx:30-34 | A render outside any mounted provider throws the no-provider message and leaves the state unchanged. |
| Lifecycle.ValueChangeIsInvisible | src/index.tsx:87-92 | Inserting a value change anywhere in a trace from a reachable state changes neither the final state nor what any dispatch calls. Registrations survive it. |
| Lifecycle.RenderConsumer | src/index.tsx:29-65 | A consumer render never changes a provider's ref and never dispatches. Its own contract only says that the state is unchanged or its registry is the new handlers mounted after the previous cleanup. The registry stays valid. When every reference is on `initialHandlers` they stay there, and the only error is the no-provider error. Exactly what it does to the registry in each case is stated by `Lifecycle.StepFirstRender` (first render), `Lifecycle.StepReRender` (re-render) and `Lifecycle.RenderOutsideProviderRegistersNothing` (no provider). |
| Lifecycle.StepFirstRender | src/index.tsx:37-50 | A consumer's first render inside a mounted provider adds its supplied handlers to the one registry. It records the handlers and the registry reference for the cleanup. |
| Lifecycle.StepReRender | src/index.tsx:37-65 | A re-render with the same four handler identities changes nothing. Otherwise the old cleanup runs and then the new effect. Each new handler is present afterwards. Each old handler that is not supplied again for its kind is gone. Kinds neither render supplies keep their sets. |
| Lifecycle.StepUnmount | src/index.tsx:51-64 | Unmounting a mounted consumer runs the cleanup it captured and forgets the consumer. |
| Lifecycle.RenderThenUnmountRestores | src/index.tsx:37-65 | A consumer with fresh handlers that renders inside a mounted provider and then unmounts leaves the state exactly as it found it. |
| Lifecycle.AbsentStaysUncalled | src/index.tsx:51-64 | An unregistered handler stays unregistered until a render supplies it again. Until then, no dispatch of its kind calls it. |
| Lifecycle.UnmountedHandlerNeverCalled | src/index.tsx:51-64 | After its consumer unmounts, a handler is never called by a later dispatch of its kind, as long as no render supplies it again. |
| Lifecycle.SharedHandlerRemovedByEitherUnmount | src/index.tsx:51-54 | Two consumers register the same `onFinish` handler and the first one unmounts. The next finish dispatch then calls nothing, although the second consumer is still mounted. |
| Lifecycle.RenderEachRegistersInOrder | src/index.tsx:37-40 | From program start, a provider mounts and consumers inside it mount one after another with distinct handlers. They leave exactly those handlers in the `onFinish` set, in mount order. |
| Lifecycle.FanOutCallsAllInMountOrder | src/index.tsx:101-105 | Consumers mount N distinct `onFinish` handlers. A finish event in which none throws then calls all N, each once, in mount order. |
| Lifecycle.NextDispatchSeesRegistration | src/index.tsx:106-115 | Dispatchers read `handlers.current` when they are called. A handler registered just before a dispatch is called by it, after the handlers that were already there. This holds when the dispatch comes from another mounted provider too. |

## Left out

- React mechanics are not modelled: `createContext`/`useContext`, JSX and
  effect scheduling. `useRef` is a map from provider instance to the object
  its ref holds. Mounts, re-renders and unmounts are explicit trace events,
  and every effect runs before the next event.
- Lifecycle.Step: a `Render` event runs one consumer's cleanup and effect
  together. React runs every cleanup of a commit before any effect of that
  commit. So the model differs when two consumers swap handlers in one
  commit. Say consumer 0 holds `onFinish` handler h and consumer 1 holds g,
  and they swap. React ends with the set [g, h]. The model ends with [h],
  while consumer 0 is still mounted with g.
- Lifecycle.Step: treats each consumer's `args` as an immutable record. The
  cleanup deletes the handlers its effect added. The code's cleanup instead
  reads the caller's `args` object when it runs. A caller that writes new
  handlers into one reused args object makes the code leak a handler. It
  renders with f1, writes f2 and renders again. The code then ends with
  [f1, f2], and after the unmount f1 is still called by every finish. The
  model ends with [f2]. `ArgsAliasing` models this case, and "## Findings"
  records it.
- Lifecycle.Step: a render outside any provider of a consumer that is
  already mounted throws and leaves the consumer mounted, with its handlers
  registered. React would instead unmount the failing tree and run the
  consumer's cleanup.
- Lifecycle.Step: a set read through a reference that holds no object throws
  and leaves the state as it was. What React does after an effect throws is
  not modelled. `Lifecycle.EveryRefIsInitialHandlers` shows that no trace
  from program start reaches this case.
- A provider's unmount is not an event. A provider stays mounted once it
  has rendered, and its consumers leave through `Unmount` events.
- `useChat` is not modelled: its network streaming, message state and the
  chat object it returns. The chat is an opaque value, and the points where
  it calls a dispatcher are `Emit` events.
- Real asynchrony is not modelled. A dispatch pass is atomic, so handlers
  added or removed while a pass awaits, which a live `Set` iterator would
  see, are not modelled. Rejections in an unawaited dispatcher reach no one
  in the model. An awaited `onResponse` or `onToolCall` handler whose promise
  never settles halts its pass for good: the pass neither completes nor
  fails, and neither `Behaviour` nor `Outcome` has a case for that.
- Arguments passed to handlers are not modelled: they are forwarded
  unchanged and play no part in the registry.
- Tool handlers keyed by tool name, routing by `toolName`, tool results in
  messages, and the duplicate-tool error are left out. `src/index.tsx` does
  not implement them, so they are not stated as properties.
- The test harness in `src/index.test.tsx` is not part of this model.

## Findings

| source | as written | input that shows it | evidently intended | confidence | as-written member | corrected member |
|---|---|---|---|---|---|---|
| src/index.tsx:51-65 | The dependency list reads the four handlers at render time. The cleanup reads them from the captured `args` object when it runs. | A consumer reuses one args object. It renders with `onFinish` f1, then the caller writes f2 into the object and renders again. The set ends as [f1, f2], and after the unmount as [f1]. | The cleanup deletes the handlers its own effect added, so the unmount leaves no handler of the consumer behind. The comment at src/index.tsx:36 keys the effect on the handlers themselves. | medium, not executed | ArgsAliasing.AsWrittenLeaks | ArgsAliasing.SnapshotRestores |

`Lifecycle` uses the corrected behaviour: a `Subscription` records the
handlers its effect registered. That agrees with the code whenever the
caller does not write into an args object after the render that passed it
(`ArgsAliasing.AsWrittenAgreesWithoutWrites`).

=== FILE: args_aliasing.dfy ===
/** The `args` object of `useAiChat` as a mutable object. The dependency list
    reads the four handlers when the component renders. The effect and its
    cleanup read them from the same object when they run. A caller that
    writes new handlers into that object between renders therefore makes the
    cleanup delete handlers other than the ones the effect added. */
module ArgsAliasing {
  import opened Wrappers
  import opened OrderedSets
  import opened Registry
  import opened Consumer

  /** One mounted `useAiChat` hook: the dependency values of the render whose
      effect ran last, and what the args object held by that effect's cleanup
      contains now. */
  datatype Hook<H> = Hook(deps: HandlerArgs<H>, current: HandlerArgs<H>)

  /** The first render with an args object holding `a`: the effect reads the
      object at once, so it adds the handlers of `a`, and the hook remembers
      `a` both as its dependencies and as the object's contents. */
  function MountHook<H(==)>(r: HandlersSets<H>, a: HandlerArgs<H>): (m: (HandlersSets<H>, Hook<H>))
    ensures forall k :: a.Supplied(k).Some? ==> m.0.Get(k) == Add(r.Get(k), a.Supplied(k).value)
    ensures forall k :: a.Supplied(k).None? ==> m.0.Get(k) == r.Get(k)
    ensures Valid(r) ==> Valid(m.0)
    ensures m.1.deps == a && m.1.current == a
  {
    (Mount(r, a), Hook(a, a))
  }

  /** The caller writes the handlers of `a` into the args object the cleanup
      holds. No effect and no cleanup runs, and the dependencies of the last
      render stay as they were. */
  function WriteArgs<H>(hook: Hook<H>, a: HandlerArgs<H>): (w: Hook<H>)
    ensures w.deps == hook.deps && w.current == a
  {
    Hook(hook.deps, a)
  }

  /** A re-render whose args object holds `a`, as the code is written. When
      the four values equal the previous dependencies nothing runs.
      Otherwise the previous cleanup reads the object it holds now, and the
      new effect adds the handlers of `a`. A handler the previous render
      added that the object no longer names is never deleted. */
  function ReRenderAsWritten<H(==)>(r: HandlersSets<H>, hook: Hook<H>, a: HandlerArgs<H>): (m: (HandlersSets<H>, Hook<H>))
    ensures hook.deps == a ==> m == (r, hook)
    ensures hook.deps != a ==> m.1.deps == a && m.1.current == a
    ensures hook.deps != a ==> forall k ::
      var before := hook.current.Supplied(k);
      && (a.Supplied(k).Some? ==> a.Supplied(k).value in m.0.Get(k))
      && (before.Some? && a.Supplied(k) != before ==> before.value !in m.0.Get(k))
      && (before.None? && a.Supplied(k).None? ==> m.0.Get(k) == r.Get(k))
    ensures forall k, h :: hook.deps.Supplied(k) == Some(h) && hook.current.Supplied(k) != Some(h) && h in r.Get(k)
              ==> h in m.0.Get(k)
  {
    if hook.deps == a then (r, hook)
    else
      var m := (Mount(Cleanup(r, hook.current), a), Hook(a, a));
      ReRenderKinds(r, hook.current, a);
      m
  }

  /** The unmount, as the code is written: the last cleanup deletes what the
      object holds now, and nothing else. A handler the last effect added
      that the object no longer names stays registered. */
  function UnmountAsWritten<H(==)>(r: HandlersSets<H>, hook: Hook<H>): (r': HandlersSets<H>)
    ensures forall k :: hook.current.Supplied(k).Some? ==> r'.Get(k) == Delete(r.Get(k), hook.current.Supplied(k).value)
    ensures forall k :: hook.current.Supplied(k).Some? ==> hook.current.Supplied(k).value !in r'.Get(k)
    ensures forall k :: hook.current.Supplied(k).None? ==> r'.Get(k) == r.Get(k)
    ensures forall k, h :: hook.deps.Supplied(k) == Some(h) && hook.current.Supplied(k) != Some(h) && h in r.Get(k)
              ==> h in r'.Get(k)
  {
    var r' := Cleanup(r, hook.current);
    CleanupKeepsOthers(r, hook.current);
    r'
  }

  /** The corrected re-render: the cleanup deletes the handlers its own
      effect added, which are the dependency values of that effect's render. */
  function ReRenderSnapshot<H(==)>(r: HandlersSets<H>, hook: Hook<H>, a: HandlerArgs<H>): (m: (HandlersSets<H>, Hook<H>))
    ensures hook.deps == a ==> m == (r, hook)
    ensures hook.deps != a ==> m.1.deps == a && m.1.current == a
    ensures hook.deps != a ==> forall k ::
      var before := hook.deps.Supplied(k);
      && (a.Supplied(k).Some? ==> a.Supplied(k).value in m.0.Get(k))
      && (before.Some? && a.Supplied(k) != before ==> before.value !in m.0.Get(k))
      && (before.None? && a.Supplied(k).None? ==> m.0.Get(k) == r.Get(k))
    ensures forall k, h :: h in r.Get(k) && hook.deps.Supplied(k) != Some(h) ==> h in m.0.Get(k)
  {
    if hook.deps == a then (r, hook)
    else
      var m := (Mount(Cleanup(r, hook.deps), a), Hook(a, a));
      ReRenderKinds(r, hook.deps, a);
      m
  }

  /** The corrected unmount: the cleanup deletes the handlers its own effect
      added, and nothing else. */
  function UnmountSnapshot<H(==)>(r: HandlersSets<H>, hook: Hook<H>): (r': HandlersSets<H>)
    ensures forall k :: hook.deps.Supplied(k).Some? ==> r'.Get(k) == Delete(r.Get(k), hook.deps.Supplied(k).value)
    ensures forall k :: hook.deps.Supplied(k).Some? ==> hook.deps.Supplied(k).value !in r'.Get(k)
    ensures forall k :: hook.deps.Supplied(k).None? ==> r'.Get(k) == r.Get(k)
    ensures forall k, h :: h in r.Get(k) && hook.deps.Supplied(k) != Some(h) ==> h in r'.Get(k)
  {
    var r' := Cleanup(r, hook.deps);
    CleanupKeepsOthers(r, hook.deps);
    r'
  }

  /** A cleanup keeps every handler it does not name. */
  lemma CleanupKeepsOthers<H>(r: HandlersSets<H>, c: HandlerArgs<H>)
    ensures forall k, h :: h in r.Get(k) && c.Supplied(k) != Some(h) ==> h in Cleanup(r, c).Get(k)
  {
  }

  /** A cleanup of `c` followed by the mount of `a`, kind by kind: the new
      handlers are present, an old one not supplied again is gone, a kind
      neither names keeps its set, and every handler `c` does not name stays. */
  lemma ReRenderKinds<H>(r: HandlersSets<H>, c: HandlerArgs<H>, a: HandlerArgs<H>)
    ensures forall k ::
      var m := Mount(Cleanup(r, c), a).Get(k);
      && (a.Supplied(k).Some? ==> a.Supplied(k).value in m)
      && (c.Supplied(k).Some? && a.Supplied(k) != c.Supplied(k) ==> c.Supplied(k).value !in m)
      && (c.Supplied(k).None? && a.Supplied(k).None? ==> m == r.Get(k))
    ensures forall k, h :: h in r.Get(k) && c.Supplied(k) != Some(h) ==> h in Mount(Cleanup(r, c), a).Get(k)
  {
    CleanupKeepsOthers(r, c);
    forall k, h | h in Cleanup(r, c).Get(k) ensures h in Mount(Cleanup(r, c), a).Get(k) {
      if a.Supplied(k).Some? {
        var i :| 0 <= i < |Cleanup(r, c).Get(k)| && Cleanup(r, c).Get(k)[i] == h;
        assert Mount(Cleanup(r, c), a).Get(k)[i] == h;
      }
    }
    forall k | c.Supplied(k).Some? && a.Supplied(k) != c.Supplied(k) ensures c.Supplied(k).value !in Mount(Cleanup(r, c), a).Get(k) {
      var x := c.Supplied(k).value;
      assert x !in Cleanup(r, c).Get(k);
    }
  }

  /** The corrected hook does not look at the args object after its render:
      writes into it change neither the next re-render nor the unmount. */
  lemma SnapshotIgnoresWrites<H>(r: HandlersSets<H>, hook: Hook<H>, w: HandlerArgs<H>, a: HandlerArgs<H>)
    ensures ReRenderSnapshot(r, WriteArgs(hook, w), a).0 == ReRenderSnapshot(r, hook, a).0
    ensures UnmountSnapshot(r, WriteArgs(hook, w)) == UnmountSnapshot(r, hook)
  {
  }

  /** As long as nobody writes into the args object after its render, the
      code as written and the corrected hook agree. */
  lemma AsWrittenAgreesWithoutWrites<H>(r: HandlersSets<H>, hook: Hook<H>, a: HandlerArgs<H>)
    requires hook.current == hook.deps
    ensures ReRenderAsWritten(r, hook, a) == ReRenderSnapshot(r, hook, a)
    ensures UnmountAsWritten(r, hook) == UnmountSnapshot(r, hook)
  {
  }

  /** The code as written leaks a handler. A consumer renders with `f1`. The
      caller writes `f2` into the same args object and renders again: the
      dependencies changed, so the cleanup runs, reads `f2`, and deletes the
      absent `f2`; the effect then adds `f2`. After the unmount `f1` is
      still registered, and every later finish dispatch calls it. */
  lemma AsWrittenLeaks<H>(f1: H, f2: H)
    requires f1 != f2
    ensures var a1 := HandlerArgs(Some(f1), None, None, None);
      var a2 := HandlerArgs(Some(f2), None, None, None);
      var m1 := MountHook(InitialHandlers(), a1);
      var m2 := ReRenderAsWritten(m1.0, WriteArgs(m1.1, a2), a2);
      && m2.0.onFinish == [f1, f2]
      && UnmountAsWritten(m2.0, m2.1).onFinish == [f1]
  {
    var a1 := HandlerArgs(Some(f1), None, None, None);
    var a2 := HandlerArgs(Some(f2), None, None, None);
    var none: HandlersSets<H> := InitialHandlers();
    assert Mount(none, a1).onFinish == [f1];
    var r1 := Mount(none, a1);
    assert Cleanup(r1, a2).onFinish == [f1];
    assert Mount(Cleanup(r1, a2), a2).onFinish == [f1, f2];
    var r2 := Mount(Cleanup(r1, a2), a2);
    assert Cleanup(r2, a2).onFinish == Delete([f1, f2], f2);
    assert Delete([f1, f2], f2) == [f1] + Delete([f2], f2);
  }

  /** The corrected hook undoes itself: whatever the caller writes into the
      args object, a mount, a re-render and the unmount leave the registry as
      they found it, provided no handler either render supplies was already
      registered. */
  lemma {:induction false} SnapshotRestores<H>(r: HandlersSets<H>, a1: HandlerArgs<H>, w: HandlerArgs<H>, a2: HandlerArgs<H>)
    requires Fresh(r, a1) && Fresh(r, a2)
    ensures var m1 := MountHook(r, a1);
      var m2 := ReRenderSnapshot(m1.0, WriteArgs(m1.1, w), a2);
      UnmountSnapshot(m2.0, m2.1) == r
  {
    CleanupUndoesMount(r, a1);
    if a1 != a2 {
      CleanupUndoesMount(r, a2);
    }
  }

  /** The corrected hook leaves behind none of the handlers its effects
      added, whether or not they were registered before, and whatever the
      caller writes into the args object. */
  lemma SnapshotRemovesAll<H>(r: HandlersSets<H>, a1: HandlerArgs<H>, w: HandlerArgs<H>, a2: HandlerArgs<H>, k: Kind)
    ensures var m1 := MountHook(r, a1);
      var m2 := ReRenderSnapshot(m1.0, WriteArgs(m1.1, w), a2);
      var r' := UnmountSnapshot(m2.0, m2.1);
      && (a1.Supplied(k).Some? ==> a1.Supplied(k).value !in r'.Get(k))
      && (a2.Supplied(k).Some? ==> a2.Supplied(k).value !in r'.Get(k))
  {
    var m1 := MountHook(r, a1);
    var m2 := ReRenderSnapshot(m1.0, WriteArgs(m1.1, w), a2);
    if a1 != a2 && a1.Supplied(k).Some? {
      var h := a1.Supplied(k).value;
      var cleaned := Cleanup(m1.0, a1);
      assert h !in cleaned.Get(k);
      if a2.Supplied(k) != Some(h) {
        assert h !in m2.0.Get(k);
      }
    }
  }
}

=== FILE: lifecycle.dfy ===
/** Lifecycle traces: provider renders and value changes, the consumers'
    effects and cleanups, and the dispatches the chat triggers, as one
    sequence of events. The providers' `handlers` refs are kept apart from
    the one `HandlersSets` object they hold. React's scheduling is replaced
    by the order of the events. */
module Lifecycle {
  import opened Wrappers
  import opened OrderedSets
  import opened Registry
  import opened Consumer
  import opened Provider
  import Traces

  /** One event of a trace.
      - `ProviderRender`: provider instance `provider` renders. Its first
        render creates its `handlers` ref and runs its mount effect.
      - `ValueChange`: the provider re-renders with a new `value`, so its
        value-change effect runs again.
      - `Render`: consumer `consumer` renders with `args`, inside the named
        provider or outside any. Its effect runs on the first render and
        whenever one of the four handler identities differs from the
        previous render's.
      - `Unmount`: the consumer's last cleanup runs.
      - `Emit`: the `useChat` of `provider` calls its dispatcher of `kind`;
        each handler ends as `behaviour` says. */
  datatype Event<!H, V> =
    | ProviderRender(provider: nat)
    | ValueChange(provider: nat)
    | Render(consumer: nat, inside: Option<nat>, args: HandlerArgs<H>)
    | Unmount(consumer: nat)
    | Emit(provider: nat, kind: Kind, behaviour: H -> Behaviour<V>)

  /** What a mounted consumer's cleanup captured: the handlers it registered
      and the registry reference it read from the context. The cleanup
      deletes exactly the handlers its effect registered. That is the
      corrected hook of `ArgsAliasing.UnmountSnapshot`. It is also what the
      code does as long as the caller does not write new handlers into its
      args object after the render that passed it
      (`ArgsAliasing.AsWrittenAgreesWithoutWrites`). */
  datatype Subscription<H> = Subscription(args: HandlerArgs<H>, registry: ObjId)

  /** The contents of the one `HandlersSets` object, `initialHandlers`; each
      provider instance's `handlers` ref; and the subscription of each mounted
      consumer. */
  datatype State<H> = State(
    handlers: HandlersSets<H>,
    refs: map<nat, ObjId>,
    mounted: map<nat, Subscription<H>>)

  /** What an event shows from outside: nothing, a thrown error, or the
      handlers one dispatch pass called. */
  datatype Observation<H> = Quiet | Threw(message: string) | Dispatched(pass: Pass<H>)

  /** The message of the `TypeError` thrown when a handler set is read
      through a reference that holds no `HandlersSets` object. */
  const UndefinedReadMessage: string := "Cannot read properties of undefined"

  /** Every provider's ref, and every registry reference a consumer's cleanup
      captured, is the module-level `initialHandlers` object. */
  ghost predicate Shared<H>(s: State<H>) {
    && AllInitial(s.refs)
    && forall c :: c in s.mounted ==> s.mounted[c].registry == InitialHandlersId
  }

  /** Provider `p` is mounted and its ref holds `initialHandlers`. */
  ghost predicate Attached<H>(s: State<H>, p: nat) {
    p in s.refs && s.refs[p] == InitialHandlersId
  }

  /** Some handler is supplied, so the effect or cleanup reads a set. */
  predicate SuppliesAny<H>(a: HandlerArgs<H>) {
    a.onFinish.Some? || a.onError.Some? || a.onResponse.Some? || a.onToolCall.Some?
  }

  /** Program start: the empty module-level registry, no provider and no
      consumer mounted. */
  function Start<H>(): (s: State<H>)
    ensures Valid(s.handlers)
    ensures forall k :: s.handlers.Get(k) == []
    ensures s.refs == map[] && s.mounted == map[]
    ensures Shared(s)
  {
    State(InitialHandlers(), map[], map[])
  }

  /** The registry after consumer `c`'s captured cleanup, when `c` is
      mounted, and the registry as it is otherwise. */
  function Released<H(==)>(s: State<H>, c: nat): HandlersSets<H> {
    if c in s.mounted then Cleanup(s.handlers, s.mounted[c].args) else s.handlers
  }

  /** A render of consumer `c` with `args`, inside `provider` or outside any:
      `useAiChat` reads the context, and the effect runs again when the
      handler identities differ from the ones its cleanup captured. */
  function RenderConsumer<H(==)>(s: State<H>, c: nat, provider: Option<nat>, a: HandlerArgs<H>): (r: (State<H>, Observation<H>))
    ensures Valid(s.handlers) ==> Valid(r.0.handlers)
    ensures Shared(s) ==> Shared(r.0)
    ensures Shared(s) && r.1.Threw? ==> r.1.message == NoProviderMessage
    ensures r.0.refs == s.refs && !r.1.Dispatched?
    ensures r.0 == s || r.0.handlers == Mount(Released(s, c), a)
  {
    var context: Option<ChatContext<()>> :=
      if provider.Some? && provider.value in s.refs then Some(ChatContext((), s.refs[provider.value])) else None;
    var rendered := UseAiChat(context);
    if rendered.Failure? then (s, Threw(rendered.error))
    else if c in s.mounted && s.mounted[c].args == a then (s, Quiet)
    else
      var target := context.value.handlers;
      if c in s.mounted && s.mounted[c].registry != InitialHandlersId && SuppliesAny(s.mounted[c].args) then
        (s, Threw(UndefinedReadMessage))
      else if target != InitialHandlersId && SuppliesAny(a) then (s, Threw(UndefinedReadMessage))
      else (State(Mount(Released(s, c), a), s.refs, s.mounted[c := Subscription(a, target)]), Quiet)
  }

  /** The effect of one event. A set read through a reference to no object
      throws and leaves the state as it was; `Shared` rules that out. */
  function Step<H(==), V>(s: State<H>, e: Event<H, V>): (r: (State<H>, Observation<H>))
    ensures Valid(s.handlers) ==> Valid(r.0.handlers)
    ensures Shared(s) ==> Shared(r.0)
    ensures Shared(s) && r.1.Threw? ==> r.1.message == NoProviderMessage
    ensures !e.Render? && !e.Unmount? ==> r.0.handlers == s.handlers && r.0.mounted == s.mounted
    ensures r.1.Dispatched? ==> e.Emit?
    ensures e.Render? || e.Unmount? || e.Emit? ==> r.0.refs == s.refs
    ensures e.Emit? && Attached(s, e.provider) ==> r == (s, Dispatched(Dispatch(s.handlers, e.kind, e.behaviour)))
  {
    match e
    case ProviderRender(p) =>
      if p in s.refs then (s, Quiet)
      else
        var refs := UseRef(s.refs, p);
        (State(s.handlers, ResetOnValueChange(refs, p), s.mounted), Quiet)
    case ValueChange(p) =>
      if p in s.refs then (State(s.handlers, ResetOnValueChange(s.refs, p), s.mounted), Quiet)
      else (s, Quiet)
    case Render(c, provider, a) => RenderConsumer(s, c, provider, a)
    case Unmount(c) =>
      if c !in s.mounted then (s, Quiet)
      else if s.mounted[c].registry != InitialHandlersId && SuppliesAny(s.mounted[c].args) then
        (s, Threw(UndefinedReadMessage))
      else (State(Cleanup(s.handlers, s.mounted[c].args), s.refs, s.mounted - {c}), Quiet)
    case Emit(p, k, b) =>
      if p !in s.refs then (s, Quiet)
      else if s.refs[p] != InitialHandlersId then (s, Threw(UndefinedReadMessage))
      else (s, Dispatched(Dispatch(s.handlers, k, b)))
  }

  /** The effect of a trace: the final state and one observation per event. */
  function Run<H(==), V>(s: State<H>, t: seq<Event<H, V>>): (r: (State<H>, seq<Observation<H>>))
    ensures |r.1| == |t|
    ensures t == [] ==> r == (s, [])
  {
    Traces.Run(Step, s, t)
  }

  /** Running a one-event trace is taking one step. */
  lemma RunOne<H, V>(s: State<H>, e: Event<H, V>)
    ensures Run(s, [e]) == (Step(s, e).0, [Step(s, e).1])
  {
    assert [e] + [] == [e];
    Traces.RunCons(Step, s, e, []);
    assert [Step(s, e).1] + [] == [Step(s, e).1];
  }

  /** Running a non-empty trace is one step followed by the rest. */
  lemma RunCons<H, V>(s: State<H>, e: Event<H, V>, t: seq<Event<H, V>>)
    ensures Run(s, [e] + t).0 == Run(Step(s, e).0, t).0
    ensures Run(s, [e] + t).1 == [Step(s, e).1] + Run(Step(s, e).0, t).1
  {
    Traces.RunCons(Step, s, e, t);
  }

  /** Running two traces one after the other is running their concatenation. */
  lemma RunAppend<H, V>(s: State<H>, t1: seq<Event<H, V>>, t2: seq<Event<H, V>>)
    ensures Run(s, t1 + t2).0 == Run(Run(s, t1).0, t2).0
    ensures Run(s, t1 + t2).1 == Run(s, t1).1 + Run(Run(s, t1).0, t2).1
  {
    Traces.RunAppend(Step, s, t1, t2);
  }

  /** Every reachable registry is valid: no set ever holds a handler twice. */
  lemma {:induction false} RunKeepsValid<H, V>(s: State<H>, t: seq<Event<H, V>>)
    requires Valid(s.handlers)
    ensures Valid(Run(s, t).0.handlers)
    decreases |t|
  {
    if t != [] {
      assert t == [t[0]] + t[1..];
      RunCons(s, t[0], t[1..]);
      RunKeepsValid(Step(s, t[0]).0, t[1..]);
    }
  }

  /** No observation in `obs` is the undefined-read error. */
  ghost predicate NoUndefinedRead<H>(obs: seq<Observation<H>>) {
    forall i :: 0 <= i < |obs| ==> obs[i] != Threw(UndefinedReadMessage)
  }

  /** `Shared` holds along every trace that starts where it holds, so no
      event ever reads a set through a reference to no object. */
  lemma {:induction false} RunKeepsShared<H, V>(s: State<H>, t: seq<Event<H, V>>)
    requires Shared(s)
    ensures Shared(Run(s, t).0)
    ensures NoUndefinedRead(Run(s, t).1)
    decreases |t|
  {
    if t != [] {
      assert t == [t[0]] + t[1..];
      RunCons(s, t[0], t[1..]);
      var s1 := Step(s, t[0]).0;
      RunKeepsShared(s1, t[1..]);
      var obs := Run(s, t).1;
      forall i | 0 <= i < |obs| ensures obs[i] != Threw(UndefinedReadMessage) {
        if i > 0 {
          assert obs[i] == Run(s1, t[1..]).1[i - 1];
        }
      }
    }
  }

  /** Along every trace from program start, every provider's ref and every
      reference a consumer captured is `initialHandlers`, and no event reads
      through a reference to no object. */
  lemma EveryRefIsInitialHandlers<H, V>(t: seq<Event<H, V>>)
    ensures forall p :: p in Run(Start<H>(), t).0.refs ==> Run(Start<H>(), t).0.refs[p] == InitialHandlersId
    ensures forall c :: c in Run(Start<H>(), t).0.mounted ==> Run(Start<H>(), t).0.mounted[c].registry == InitialHandlersId
    ensures NoUndefinedRead(Run(Start<H>(), t).1)
  {
    RunKeepsShared(Start<H>(), t);
  }

  /** All provider instances share one registry: when `Shared` holds, the
      dispatchers of any two mounted providers call the same handlers, and
      a consumer's render registers the same way inside either of them. */
  lemma ProvidersShareRegistry<H, V>(s: State<H>, p: nat, q: nat, c: nat, a: HandlerArgs<H>, k: Kind, b: H -> Behaviour<V>)
    requires Shared(s) && p in s.refs && q in s.refs
    ensures Step(s, Emit(p, k, b)) == Step(s, Emit(q, k, b))
    ensures Step(s, Event<H, V>.Render(c, Some(p), a)) == Step(s, Event<H, V>.Render(c, Some(q), a))
  {
  }

  /** When `Shared` holds, the value-change effect of any provider changes
      nothing. */
  lemma ValueChangeKeepsState<H, V>(s: State<H>, p: nat)
    requires Shared(s)
    ensures Step(s, Event<H, V>.ValueChange(p)) == (s, Quiet)
  {
    if p in s.refs {
      ResetIsNoOp(s.refs, p);
    }
  }

  /** A dispatch at the end of a trace reads the registry the trace left. */
  lemma RunThenEmit<H, V>(s: State<H>, t: seq<Event<H, V>>, p: nat, k: Kind, b: H -> Behaviour<V>)
    requires Attached(Run(s, t).0, p)
    ensures Run(s, t + [Emit(p, k, b)]).1[|t|] == Dispatched(Dispatch(Run(s, t).0.handlers, k, b))
  {
    var e := Event<H, V>.Emit(p, k, b);
    var s1 := Run(s, t).0;
    RunOne(s1, e);
    RunAppend(s, t, [e]);
  }

  /** A consumer rendered outside any mounted provider throws the
      no-provider error and registers nothing. */
  lemma RenderOutsideProviderRegistersNothing<H, V>(s: State<H>, c: nat, provider: Option<nat>, a: HandlerArgs<H>)
    requires provider.None? || provider.value !in s.refs
    ensures Step(s, Event<H, V>.Render(c, provider, a)) == (s, Threw(NoProviderMessage))
  {
  }

  /** A consumer that first renders with the default argument `{}` leaves
      the registry as it was. */
  lemma RenderWithNoHandlersRegistersNothing<H, V>(s: State<H>, c: nat, provider: Option<nat>)
    requires c !in s.mounted
    ensures Step(s, Event<H, V>.Render(c, provider, NoHandlers())).0.handlers == s.handlers
  {
  }

  /** The value-change effect is invisible: inserting it anywhere in a trace
      that starts where `Shared` holds changes neither the final state nor
      what any dispatch calls. */
  lemma ValueChangeIsInvisible<H, V>(s: State<H>, p: nat, t1: seq<Event<H, V>>, t2: seq<Event<H, V>>)
    requires Shared(s)
    ensures Run(s, t1 + [ValueChange(p)] + t2).0 == Run(s, t1 + t2).0
    ensures Run(s, t1 + [ValueChange(p)] + t2).1
         == Run(s, t1 + t2).1[..|t1|] + [Quiet] + Run(s, t1 + t2).1[|t1|..]
  {
    var e := Event<H, V>.ValueChange(p);
    var s1 := Run(s, t1).0;
    RunKeepsShared(s, t1);
    ValueChangeKeepsState<H, V>(s1, p);
    RunAppend(s, t1, [e] + t2);
    assert t1 + [e] + t2 == t1 + ([e] + t2);
    assert ([e] + t2)[1..] == t2;
    RunCons(s1, e, t2);
    RunAppend(s, t1, t2);
  }

  /** A consumer that renders inside a mounted provider and then unmounts,
      with handlers none of which were registered, leaves the state exactly
      as it found it. */
  lemma RenderThenUnmountRestores<H, V>(s: State<H>, c: nat, p: nat, a: HandlerArgs<H>)
    requires Attached(s, p) && c !in s.mounted
    requires Fresh(s.handlers, a)
    ensures Run(s, [Event<H, V>.Render(c, Some(p), a), Unmount(c)]).0 == s
  {
    var e0, e1 := Event<H, V>.Render(c, Some(p), a), Event<H, V>.Unmount(c);
    StepFirstRender<H, V>(s, c, p, a);
    var s1 := State(Mount(s.handlers, a), s.refs, s.mounted[c := Subscription(a, InitialHandlersId)]);
    UnmountAfterFirstRender<H, V>(s, c, a);
    assert [e0, e1] == [e0] + [e1];
    RunCons(s, e0, [e1]);
    RunOne(s1, e1);
  }

  /** The unmount step of `RenderThenUnmountRestores`. */
  lemma UnmountAfterFirstRender<H, V>(s: State<H>, c: nat, a: HandlerArgs<H>)
    requires c !in s.mounted
    requires Fresh(s.handlers, a)
    ensures Step(State(Mount(s.handlers, a), s.refs, s.mounted[c := Subscription(a, InitialHandlersId)]), Event<H, V>.Unmount(c)).0 == s
  {
    var s1 := State(Mount(s.handlers, a), s.refs, s.mounted[c := Subscription(a, InitialHandlersId)]);
    StepUnmount<H, V>(s1, c);
    CleanupUndoesMount(s.handlers, a);
    UpdateThenRemove(s.mounted, c, Subscription(a, InitialHandlersId));
  }

  /** Adding a fresh key to a map and removing it again gives the map back. */
  lemma UpdateThenRemove<K, W>(m: map<K, W>, c: K, w: W)
    requires c !in m
    ensures m[c := w] - {c} == m
  {
  }

  /** No `Render` supplies `h` for kind `k`. */
  ghost predicate NeverSupplies<H, V>(t: seq<Event<H, V>>, k: Kind, h: H) {
    forall i :: 0 <= i < |t| && t[i].Render? ==> t[i].args.Supplied(k) != Some(h)
  }

  /** No dispatch of kind `k` recorded in `obs` called `h`. */
  ghost predicate NeverCalled<H, V>(t: seq<Event<H, V>>, obs: seq<Observation<H>>, k: Kind, h: H) {
    forall i :: 0 <= i < |t| && i < |obs| && t[i].Emit? && t[i].kind == k && obs[i].Dispatched? ==>
      h !in obs[i].pass.invoked
  }

  /** One step keeps an unregistered handler unregistered unless the step is
      a render that supplies it, and a dispatch of its kind does not call it. */
  lemma StepKeepsAbsent<H, V>(s: State<H>, e: Event<H, V>, k: Kind, h: H)
    requires h !in s.handlers.Get(k)
    requires e.Render? ==> e.args.Supplied(k) != Some(h)
    ensures h !in Step(s, e).0.handlers.Get(k)
    ensures e.Emit? && e.kind == k && Step(s, e).1.Dispatched? ==> h !in Step(s, e).1.pass.invoked
  {
    if e.Render? {
      RenderKeepsAbsent<H, V>(s, e.consumer, e.inside, e.args, k, h);
    }
  }

  /** The render case of `StepKeepsAbsent`: the cleanup only removes, and
      the mount adds only what the render supplies. */
  lemma RenderKeepsAbsent<H, V>(s: State<H>, c: nat, provider: Option<nat>, a: HandlerArgs<H>, k: Kind, h: H)
    requires h !in s.handlers.Get(k)
    requires a.Supplied(k) != Some(h)
    ensures h !in Step(s, Event<H, V>.Render(c, provider, a)).0.handlers.Get(k)
  {
    var cleaned := Released(s, c);
    assert h !in cleaned.Get(k);
    assert h !in Mount(cleaned, a).Get(k);
  }

  /** A handler that is not registered stays unregistered, and is never
      called by a dispatch of its kind, for as long as no render supplies it
      again. */
  lemma {:induction false} AbsentStaysUncalled<H, V>(s: State<H>, t: seq<Event<H, V>>, k: Kind, h: H)
    requires h !in s.handlers.Get(k)
    requires NeverSupplies(t, k, h)
    ensures h !in Run(s, t).0.handlers.Get(k)
    ensures NeverCalled(t, Run(s, t).1, k, h)
    decreases |t|
  {
    if t != [] {
      var e := t[0];
      var rest := t[1..];
      assert t == [e] + rest;
      StepKeepsAbsent(s, e, k, h);
      var s1 := Step(s, e).0;
      assert NeverSupplies(rest, k, h) by {
        forall i | 0 <= i < |rest| && rest[i].Render?
          ensures rest[i].args.Supplied(k) != Some(h)
        {
          assert rest[i] == t[i + 1];
        }
      }
      AbsentStaysUncalled(s1, rest, k, h);
      RunCons(s, e, rest);
      NeverCalledCons(e, Step(s, e).1, rest, Run(s1, rest).1, k, h);
    }
  }

  /** Prepending one event and its observation keeps `NeverCalled` when that
      observation is not a dispatch of kind `k` calling `h`. */
  lemma NeverCalledCons<H, V>(e: Event<H, V>, o: Observation<H>, t: seq<Event<H, V>>, obs: seq<Observation<H>>, k: Kind, h: H)
    requires e.Emit? && e.kind == k && o.Dispatched? ==> h !in o.pass.invoked
    requires NeverCalled(t, obs, k, h)
    ensures NeverCalled([e] + t, [o] + obs, k, h)
  {
    forall i | 0 <= i < |[e] + t| && i < |[o] + obs| && ([e] + t)[i].Emit? && ([e] + t)[i].kind == k && ([o] + obs)[i].Dispatched?
      ensures h !in ([o] + obs)[i].pass.invoked
    {
      if i > 0 {
        assert ([e] + t)[i] == t[i - 1];
        assert ([o] + obs)[i] == obs[i - 1];
      }
    }
  }

  /** Unmount-then-never-called: once a consumer has unmounted, a handler it
      supplied is not called by any later dispatch of its kind, for as long
      as no render supplies it again. */
  lemma UnmountedHandlerNeverCalled<H, V>(s: State<H>, c: nat, k: Kind, h: H, t: seq<Event<H, V>>)
    requires c in s.mounted && s.mounted[c].registry == InitialHandlersId
    requires s.mounted[c].args.Supplied(k) == Some(h)
    requires NeverSupplies(t, k, h)
    ensures NeverCalled([Unmount(c)] + t, Run(s, [Unmount(c)] + t).1, k, h)
  {
    var e := Event<H, V>.Unmount(c);
    StepUnmount<H, V>(s, c);
    var s1 := State(Cleanup(s.handlers, s.mounted[c].args), s.refs, s.mounted - {c});
    assert h !in s1.handlers.Get(k);
    AbsentStaysUncalled(s1, t, k, h);
    RunCons(s, e, t);
    NeverCalledCons(e, Quiet, t, Run(s1, t).1, k, h);
  }

  /** The first render of a consumer inside a mounted provider runs its
      effect on the registry the provider's ref holds. */
  lemma StepFirstRender<H, V>(s: State<H>, c: nat, p: nat, a: HandlerArgs<H>)
    requires Attached(s, p) && c !in s.mounted
    ensures Step(s, Event<H, V>.Render(c, Some(p), a))
         == (State(Mount(s.handlers, a), s.refs, s.mounted[c := Subscription(a, InitialHandlersId)]), Quiet)
  {
  }

  /** A re-render of a mounted consumer. With the same four handler
      identities the effect does not run again. Otherwise the captured
      cleanup runs first and the effect then registers the new handlers:
      each new handler is present, each old handler that is not supplied
      again for its kind is gone, and kinds neither render supplies keep
      their sets. */
  lemma StepReRender<H, V>(s: State<H>, c: nat, p: nat, a: HandlerArgs<H>)
    requires Attached(s, p) && c in s.mounted && s.mounted[c].registry == InitialHandlersId
    ensures s.mounted[c].args == a ==> Step(s, Event<H, V>.Render(c, Some(p), a)) == (s, Quiet)
    ensures s.mounted[c].args != a ==>
      Step(s, Event<H, V>.Render(c, Some(p), a))
      == (State(Mount(Cleanup(s.handlers, s.mounted[c].args), a), s.refs, s.mounted[c := Subscription(a, InitialHandlersId)]), Quiet)
    ensures s.mounted[c].args != a ==> forall k ::
      var before := s.mounted[c].args.Supplied(k);
      var now := Step(s, Event<H, V>.Render(c, Some(p), a)).0.handlers.Get(k);
      && (a.Supplied(k).Some? ==> a.Supplied(k).value in now)
      && (before.Some? && a.Supplied(k) != before ==> before.value !in now)
      && (before.None? && a.Supplied(k).None? ==> now == s.handlers.Get(k))
  {
    if s.mounted[c].args != a {
      var cleaned := Cleanup(s.handlers, s.mounted[c].args);
      var r := Mount(cleaned, a);
      assert Step(s, Event<H, V>.Render(c, Some(p), a)).0.handlers == r;
      forall k ensures s.mounted[c].args.Supplied(k).Some? && a.Supplied(k) != s.mounted[c].args.Supplied(k)
        ==> s.mounted[c].args.Supplied(k).value !in r.Get(k)
      {
        if s.mounted[c].args.Supplied(k).Some? {
          assert s.mounted[c].args.Supplied(k).value !in cleaned.Get(k);
        }
      }
    }
  }

  /** Unmounting a mounted consumer runs the cleanup it captured. */
  lemma StepUnmount<H, V>(s: State<H>, c: nat)
    requires c in s.mounted && s.mounted[c].registry == InitialHandlersId
    ensures Step(s, Event<H, V>.Unmount(c))
         == (State(Cleanup(s.handlers, s.mounted[c].args), s.refs, s.mounted - {c}), Quiet)
  {
  }

  /** Provider 0 mounted, with the empty module-level registry. */
  function ProviderMounted<H>(): (s: State<H>)
    ensures Attached(s, 0) && Shared(s)
    ensures forall k :: s.handlers.Get(k) == []
    ensures s.mounted == map[]
  {
    State(InitialHandlers(), map[0 := InitialHandlersId], map[])
  }

  /** The first render of a provider creates its ref, holding
      `initialHandlers`. */
  lemma StepProviderMount<H, V>()
    ensures Step(Start<H>(), Event<H, V>.ProviderRender(0)) == (ProviderMounted(), Quiet)
  {
    assert map[0 := InitialHandlersId][0 := InitialHandlersId] == map[0 := InitialHandlersId];
  }

  /** The two renders of the shared-handler scenario below: the second
      consumer's `add` finds the handler already there. */
  lemma SharedHandlerRenders<H, V>(h: H, a: HandlerArgs<H>, s1: State<H>, s2: State<H>)
    requires a == HandlerArgs(Some(h), None, None, None)
    requires s1 == State(HandlersSets([h], [], [], []), map[0 := InitialHandlersId], map[0 := Subscription(a, InitialHandlersId)])
    requires s2 == State(HandlersSets([h], [], [], []), map[0 := InitialHandlersId], map[0 := Subscription(a, InitialHandlersId), 1 := Subscription(a, InitialHandlersId)])
    ensures Step(ProviderMounted(), Event<H, V>.Render(0, Some(0), a)) == (s1, Quiet)
    ensures Step(s1, Event<H, V>.Render(1, Some(0), a)) == (s2, Quiet)
  {
    var none: HandlersSets<H> := HandlersSets([], [], [], []);
    var one := s1.handlers;
    assert Step(ProviderMounted(), Event<H, V>.Render(0, Some(0), a)) == (s1, Quiet) by {
      StepFirstRender<H, V>(ProviderMounted(), 0, 0, a);
      assert Mount(none, a).Get(OnFinish) == [h];
      Extensionality(Mount(none, a), one);
    }
    StepFirstRender<H, V>(s1, 1, 0, a);
    assert Mount(one, a).Get(OnFinish) == [h];
    Extensionality(Mount(one, a), one);
  }

  /** The unmount of the shared-handler scenario below: the cleanup deletes
      the handler although consumer 1 still supplies it. */
  lemma SharedHandlerUnmount<H, V>(h: H, a: HandlerArgs<H>, s2: State<H>, s3: State<H>)
    requires a == HandlerArgs(Some(h), None, None, None)
    requires s2 == State(HandlersSets([h], [], [], []), map[0 := InitialHandlersId], map[0 := Subscription(a, InitialHandlersId), 1 := Subscription(a, InitialHandlersId)])
    requires s3 == State(HandlersSets([], [], [], []), map[0 := InitialHandlersId], map[1 := Subscription(a, InitialHandlersId)])
    ensures Step(s2, Event<H, V>.Unmount(0)) == (s3, Quiet)
  {
    StepUnmount<H, V>(s2, 0);
    assert Cleanup(s2.handlers, a).Get(OnFinish) == [];
    Extensionality(Cleanup(s2.handlers, a), s3.handlers);
    assert s2.mounted - {0} == s3.mounted;
  }

  /** Handler identity is all the registry knows: when two mounted consumers
      supply the same handler, the first to unmount removes it for both. */
  lemma SharedHandlerRemovedByEitherUnmount<H, V>(h: H, b: H -> Behaviour<V>)
    ensures var a := HandlerArgs(Some(h), None, None, None);
      var r := Run(Start(), [ProviderRender(0), Render(0, Some(0), a), Render(1, Some(0), a), Unmount(0), Emit(0, OnFinish, b)]);
      && 1 in r.0.mounted
      && r.1[4] == Dispatched(Pass([], Completed))
  {
    var a := HandlerArgs(Some(h), None, None, None);
    var sub := Subscription(a, InitialHandlersId);
    var s1 := State(HandlersSets([h], [], [], []), map[0 := InitialHandlersId], map[0 := sub]);
    var s2 := State(HandlersSets([h], [], [], []), map[0 := InitialHandlersId], map[0 := sub, 1 := sub]);
    var s3 := State(HandlersSets([], [], [], []), map[0 := InitialHandlersId], map[1 := sub]);
    var e0, e1, e2, e3, e4 := Event<H, V>.ProviderRender(0), Render(0, Some(0), a), Render(1, Some(0), a), Unmount(0), Emit(0, OnFinish, b);
    var done := Dispatched(Pass([], Completed));
    StepProviderMount<H, V>();
    SharedHandlerRenders<H, V>(h, a, s1, s2);
    SharedHandlerUnmount<H, V>(h, a, s2, s3);
    SharedHandlerEmit(s3, b);
    Traces.RunFirstStep(Step, s3, e4, [], s3, done);
    Traces.RunFirstStep(Step, s2, e3, [e4], s3, Quiet);
    Traces.RunFirstStep(Step, s1, e2, [e3] + [e4], s2, Quiet);
    Traces.RunFirstStep(Step, ProviderMounted(), e1, [e2] + ([e3] + [e4]), s1, Quiet);
    Traces.RunFirstStep(Step, Start(), e0, [e1] + ([e2] + ([e3] + [e4])), ProviderMounted(), Quiet);
    assert [e0] + ([e1] + ([e2] + ([e3] + [e4]))) == [e0, e1, e2, e3, e4];
  }

  /** The last event of the shared-handler scenario: the finish dispatch
      finds the set empty. */
  lemma SharedHandlerEmit<H, V>(s3: State<H>, b: H -> Behaviour<V>)
    requires Attached(s3, 0) && s3.handlers.onFinish == []
    ensures Step(s3, Event<H, V>.Emit(0, OnFinish, b)) == (s3, Dispatched(Pass([], Completed)))
  {
  }

  /** `Render` of consumers `base`, `base + 1`, ... inside provider 0, each
      supplying only the next `onFinish` handler of `hs`. */
  function RenderEach<H, V>(hs: seq<H>, base: nat): (t: seq<Event<H, V>>)
    ensures |t| == |hs|
    decreases |hs|
  {
    if hs == [] then []
    else [Render(base, Some(0), HandlerArgs(Some(hs[0]), None, None, None))] + RenderEach(hs[1..], base + 1)
  }

  /** Consumers that mount one after another append their handlers to the
      set in mount order. */
  lemma {:induction false} RenderEachAppends<H, V>(s: State<H>, hs: seq<H>, base: nat)
    requires Attached(s, 0)
    requires NoDup(hs)
    requires forall i :: 0 <= i < |hs| ==> hs[i] !in s.handlers.onFinish
    requires forall c :: c in s.mounted ==> c < base
    ensures Run(s, RenderEach<H, V>(hs, base)).0.handlers.onFinish == s.handlers.onFinish + hs
    ensures forall k :: k != OnFinish ==> Run(s, RenderEach<H, V>(hs, base)).0.handlers.Get(k) == s.handlers.Get(k)
    ensures Run(s, RenderEach<H, V>(hs, base)).0.refs == s.refs
    decreases |hs|
  {
    if hs == [] {
      assert s.handlers.onFinish + hs == s.handlers.onFinish;
    } else {
      var a := HandlerArgs(Some(hs[0]), None, None, None);
      var e := Event<H, V>.Render(base, Some(0), a);
      var rest := RenderEach<H, V>(hs[1..], base + 1);
      assert RenderEach<H, V>(hs, base) == [e] + rest;
      var s1 := Step(s, e).0;
      assert base !in s.mounted;
      StepFirstRender<H, V>(s, base, 0, a);
      assert s1.handlers.onFinish == s.handlers.onFinish + [hs[0]] by {
        assert a.Supplied(OnFinish) == Some(hs[0]);
        assert s1.handlers.Get(OnFinish) == Add(s.handlers.Get(OnFinish), hs[0]);
        assert hs[0] !in s.handlers.onFinish;
      }
      forall i | 0 <= i < |hs[1..]| ensures hs[1..][i] !in s1.handlers.onFinish {
        assert hs[1..][i] == hs[i + 1];
        assert hs[i + 1] != hs[0];
      }
      RenderEachAppends<H, V>(s1, hs[1..], base + 1);
      RunCons(s, e, rest);
      assert s.handlers.onFinish + [hs[0]] + hs[1..] == s.handlers.onFinish + hs;
    }
  }

  /** From program start, a provider mounts and consumers inside it mount
      one after another: the `onFinish` set then holds exactly their
      handlers, in mount order. */
  lemma RenderEachRegistersInOrder<H, V>(hs: seq<H>)
    requires NoDup(hs)
    ensures Run(Start(), [ProviderRender(0)] + RenderEach<H, V>(hs, 0)).0.handlers.Get(OnFinish) == hs
    ensures Attached(Run(Start(), [ProviderRender(0)] + RenderEach<H, V>(hs, 0)).0, 0)
  {
    var s := ProviderMounted<H>();
    StepProviderMount<H, V>();
    RunCons(Start(), ProviderRender(0), RenderEach<H, V>(hs, 0));
    assert s.handlers.onFinish == [];
    RenderEachAppends<H, V>(s, hs, 0);
    assert [] + hs == hs;
  }

  /** Fan-out completeness: after N consumers each mount a distinct `onFinish`
      handler, one finish event calls all N, once each, in mount order. */
  lemma FanOutCallsAllInMountOrder<H, V>(hs: seq<H>, b: H -> Behaviour<V>)
    requires NoDup(hs)
    requires forall h :: h in hs ==> !b(h).Throws?
    ensures Run(Start(), [ProviderRender(0)] + RenderEach<H, V>(hs, 0) + [Emit(0, OnFinish, b)]).1[|hs| + 1]
         == Dispatched(Pass(hs, Completed))
  {
    var t := [ProviderRender(0)] + RenderEach<H, V>(hs, 0);
    var s := Run(Start(), t).0;
    assert |t| == |hs| + 1;
    RenderEachRegistersInOrder<H, V>(hs);
    UnawaitedPassIgnoresRejection(s.handlers, OnFinish, b);
    RunThenEmit(Start(), t, 0, OnFinish, b);
  }

  /** Dispatchers read the registry when they are called: a handler a
      consumer inside provider `p` has just registered is called by the next
      dispatch of its kind, from `p` or from any other mounted provider `q`,
      after the handlers that were there before. */
  lemma NextDispatchSeesRegistration<H, V>(s: State<H>, c: nat, p: nat, q: nat, a: HandlerArgs<H>, k: Kind, h: H, b: H -> Behaviour<V>)
    requires Attached(s, p) && Attached(s, q) && c !in s.mounted
    requires a.Supplied(k) == Some(h) && h !in s.handlers.Get(k)
    requires forall x :: x in s.handlers.Get(k) + [h] ==> !Stops(k, b(x))
    ensures Run(s, [Render(c, Some(p), a), Emit(q, k, b)]).1[1]
         == Dispatched(Pass(s.handlers.Get(k) + [h], Completed))
  {
    var e0 := Event<H, V>.Render(c, Some(p), a);
    StepFirstRender<H, V>(s, c, p, a);
    var s1 := State(Mount(s.handlers, a), s.refs, s.mounted[c := Subscription(a, InitialHandlersId)]);
    var hs := s.handlers.Get(k) + [h];
    assert s1.handlers.Get(k) == hs;
    DispatchCompletes(s1.handlers, k, b);
    RunOne(s, e0);
    RunThenEmit(s, [e0], q, k, b);
    assert [e0] + [Emit(q, k, b)] == [e0, Emit(q, k, b)];
  }
}

=== FILE: ordered_set.dfy ===
/** A JavaScript `Set` as far as the handler registry uses it: a collection
    with identity-based uniqueness that iterates in insertion order. It is
    modelled as a duplicate-free sequence whose order is the iteration order. */
module OrderedSets {

  /** No element occurs twice: the invariant every JavaScript `Set` keeps. */
  ghost predicate NoDup<T>(s: seq<T>) {
    forall i, j :: 0 <= i < j < |s| ==> s[i] != s[j]
  }

  /** `r` is obtained from `s` by dropping some elements, keeping the order
      of the others. */
  predicate Subsequence<T(==)>(r: seq<T>, s: seq<T>)
    decreases |s|
  {
    if r == [] then true
    else if s == [] then false
    else if r[0] == s[0] then Subsequence(r[1..], s[1..])
    else Subsequence(r, s[1..])
  }

  /** `Set.prototype.add`: a new element is appended at the end of the
      iteration order; adding an element that is already there changes
      nothing, not even its position. */
  function Add<T(==)>(s: seq<T>, x: T): (r: seq<T>)
    ensures x in r
    ensures forall i :: 0 <= i < |r| ==> r[i] in s || r[i] == x
    ensures s <= r
    ensures x in s ==> r == s
    ensures NoDup(s) ==> NoDup(r)
  {
    if x in s then s else s + [x]
  }

  /** `Set.prototype.delete`: the element is removed, the others keep their
      relative order; deleting an absent element is a no-op. */
  function Delete<T(==)>(s: seq<T>, x: T): (r: seq<T>)
    ensures forall i :: 0 <= i < |r| ==> r[i] in s && r[i] != x
    ensures forall i :: 0 <= i < |s| && s[i] != x ==> s[i] in r
    ensures Subsequence(r, s)
    ensures x !in s ==> r == s
    ensures NoDup(s) ==> NoDup(r)
    decreases |s|
  {
    if s == [] then []
    else
      var rest := Delete(s[1..], x);
      var r := if s[0] == x then rest else [s[0]] + rest;
      DeleteStep(s, x, rest, r);
      r
  }

  /** The inductive step of `Delete`: the contract for the tail carries over
      to the whole sequence, whether the head is dropped or kept. */
  lemma DeleteStep<T>(s: seq<T>, x: T, rest: seq<T>, r: seq<T>)
    requires s != []
    requires forall i :: 0 <= i < |rest| ==> rest[i] in s[1..] && rest[i] != x
    requires forall i :: 0 <= i < |s[1..]| && s[1..][i] != x ==> s[1..][i] in rest
    requires Subsequence(rest, s[1..])
    requires x !in s[1..] ==> rest == s[1..]
    requires NoDup(s[1..]) ==> NoDup(rest)
    requires r == if s[0] == x then rest else [s[0]] + rest
    ensures forall i :: 0 <= i < |r| ==> r[i] in s && r[i] != x
    ensures forall i :: 0 <= i < |s| && s[i] != x ==> s[i] in r
    ensures Subsequence(r, s)
    ensures x !in s ==> r == s
    ensures NoDup(s) ==> NoDup(r)
  {
    forall i | 0 <= i < |s| && s[i] != x ensures s[i] in r {
      if i > 0 {
        assert s[i] == s[1..][i - 1];
      }
    }
    NoDupTail(s);
    if s[0] == x {
      assert rest == [] || rest[0] != s[0];
    } else {
      KeepHeadStep(s, x, rest, r);
    }
  }

  /** A duplicate-free sequence has a duplicate-free tail. */
  lemma NoDupTail<T>(s: seq<T>)
    requires s != []
    ensures NoDup(s) ==> NoDup(s[1..])
  {
    if NoDup(s) {
      forall i, j | 0 <= i < j < |s[1..]| ensures s[1..][i] != s[1..][j] {
        assert s[1..][i] == s[i + 1] && s[1..][j] == s[j + 1];
      }
    }
  }

  /** The step of `Delete` that keeps the head. */
  lemma KeepHeadStep<T>(s: seq<T>, x: T, rest: seq<T>, r: seq<T>)
    requires s != [] && s[0] != x && r == [s[0]] + rest
    requires forall i :: 0 <= i < |rest| ==> rest[i] in s[1..] && rest[i] != x
    requires x !in s[1..] ==> rest == s[1..]
    requires NoDup(s[1..]) ==> NoDup(rest)
    ensures forall i :: 0 <= i < |r| ==> r[i] in s && r[i] != x
    ensures x !in s ==> r == s
    ensures NoDup(s) ==> NoDup(r)
  {
    assert r[1..] == rest;
    forall i | 0 <= i < |r| ensures r[i] in s && r[i] != x {
      if i > 0 {
        assert r[i] == rest[i - 1];
      }
    }
    if x !in s {
      assert x !in s[1..];
      assert r == [s[0]] + s[1..];
    }
    NoDupTail(s);
    ConsKeepsNoDup(s, rest);
  }

  /** Putting the head of a duplicate-free `s` in front of a duplicate-free
      sequence drawn from its tail keeps it duplicate-free. */
  lemma ConsKeepsNoDup<T>(s: seq<T>, rest: seq<T>)
    requires s != []
    ensures NoDup(s) && NoDup(rest) && (forall i :: 0 <= i < |rest| ==> rest[i] in s[1..])
      ==> NoDup([s[0]] + rest)
  {
    if NoDup(s) && NoDup(rest) && (forall i :: 0 <= i < |rest| ==> rest[i] in s[1..]) {
      NoDupHeadNotInTail(s);
      var r := [s[0]] + rest;
      forall i, j | 0 <= i < j < |r| ensures r[i] != r[j] {
        assert r[j] == rest[j - 1];
        if i > 0 {
          assert r[i] == rest[i - 1];
        }
      }
    }
  }

  /** Deleting distributes over concatenation. */
  lemma {:induction false} DeleteAppend<T>(a: seq<T>, b: seq<T>, x: T)
    ensures Delete(a + b, x) == Delete(a, x) + Delete(b, x)
  {
    if a == [] {
      assert a + b == b;
    } else {
      assert (a + b)[1..] == a[1..] + b;
      DeleteAppend(a[1..], b, x);
    }
  }

  /** Delete undoes add: adding an element that was absent and then deleting
      it gives back the set exactly, order included. */
  lemma {:induction false} DeleteUndoesAdd<T>(s: seq<T>, x: T)
    requires x !in s
    ensures Delete(Add(s, x), x) == s
  {
    DeleteAppend(s, [x], x);
    assert Delete([x], x) == [];
  }

  /** Adding twice is adding once. */
  lemma AddIdempotent<T>(s: seq<T>, x: T)
    ensures Add(Add(s, x), x) == Add(s, x)
  {
  }

  /** Whatever was there before, a delete leaves the element absent; deleting
      again changes nothing. */
  lemma DeleteIdempotent<T>(s: seq<T>, x: T)
    ensures Delete(Delete(s, x), x) == Delete(s, x)
  {
  }

  /** A duplicate-free sequence with the same elements as `s` that is a
      subsequence of `s` is unique: the contract of `Delete` determines its
      result. */
  lemma {:induction false} SubsequenceDetermined<T>(r1: seq<T>, r2: seq<T>, s: seq<T>)
    requires NoDup(s)
    requires Subsequence(r1, s) && Subsequence(r2, s)
    requires forall y :: y in r1 <==> y in r2
    ensures r1 == r2
    decreases |s|
  {
    if s != [] {
      var t := s[1..];
      assert NoDup(t) by {
        forall i, j | 0 <= i < j < |t| ensures t[i] != t[j] {
          assert t[i] == s[i + 1] && t[j] == s[j + 1];
        }
      }
      SubsequenceInSuffix(r1, s);
      SubsequenceInSuffix(r2, s);
      if r1 != [] && r1[0] == s[0] {
        assert s[0] in r2;
        if r2 == [] || r2[0] != s[0] {
          assert Subsequence(r2, t);
          SubsequenceElements(r2, t);
          assert s[0] in t;
          NoDupHeadNotInTail(s);
          assert false;
        }
        HeadNotInRest(r1, s);
        HeadNotInRest(r2, s);
        forall y ensures y in r1[1..] <==> y in r2[1..] {
          assert y in r1 <==> y == s[0] || y in r1[1..];
          assert y in r2 <==> y == s[0] || y in r2[1..];
        }
        SubsequenceDetermined(r1[1..], r2[1..], t);
      } else {
        assert r1 == [] || r1[0] != s[0];
        if r2 != [] && r2[0] == s[0] {
          assert s[0] in r1;
          SubsequenceElements(r1, t);
          NoDupHeadNotInTail(s);
          assert false;
        }
        SubsequenceDetermined(r1, r2, t);
      }
    }
  }

  lemma {:induction false} SubsequenceElements<T>(r: seq<T>, s: seq<T>)
    requires Subsequence(r, s)
    ensures forall y :: y in r ==> y in s
    decreases |s|
  {
    if r != [] {
      if r[0] == s[0] {
        SubsequenceElements(r[1..], s[1..]);
        forall y | y in r ensures y in s {
          if y != r[0] { assert y in r[1..]; }
        }
      } else {
        SubsequenceElements(r, s[1..]);
      }
    }
  }

  /** When the head of `r` is not the head of `s`, all of `r` sits in the tail. */
  lemma SubsequenceInSuffix<T>(r: seq<T>, s: seq<T>)
    requires s != [] && Subsequence(r, s)
    ensures r != [] && r[0] == s[0] ==> Subsequence(r[1..], s[1..])
    ensures r == [] || r[0] != s[0] ==> Subsequence(r, s[1..])
  {
  }

  lemma NoDupHeadNotInTail<T>(s: seq<T>)
    requires NoDup(s) && s != []
    ensures s[0] !in s[1..]
  {
  }

  lemma HeadNotInRest<T>(r: seq<T>, s: seq<T>)
    requires NoDup(s) && s != [] && r != [] && r[0] == s[0]
    requires Subsequence(r[1..], s[1..])
    ensures r[0] !in r[1..]
  {
    SubsequenceElements(r[1..], s[1..]);
    NoDupHeadNotInTail(s);
  }
}

=== FILE: provider.dfy ===
/** The provider side, `AiChatProvider`: the four dispatchers it hands to
    `useChat`, each of which reads the registry at call time and calls the
    handlers of its own kind one after another in set order. */
module Provider {
  import opened Wrappers
  import opened OrderedSets
  import opened Registry

  /** How one handler call ends in a given dispatch pass: it returns a value
      (or a promise that fulfils with it), it throws synchronously, or it
      returns a promise that rejects. */
  datatype Behaviour<V> = Returns(value: V) | Throws | Rejects

  /** How the dispatcher itself ends: it completes (returning nothing, or a
      promise of nothing), or it fails because of the named handler. */
  datatype Outcome<H> = Completed | Failed(culprit: H)

  /** One dispatch pass: the handlers called, in call order, and its end. */
  datatype Pass<H> = Pass(invoked: seq<H>, outcome: Outcome<H>)

  /** `onResponse` and `onToolCall` are `async` and `await` every handler;
      `onFinish` and `onError` call them without awaiting. */
  predicate Awaits(k: Kind) {
    k == OnResponse || k == OnToolCall
  }

  /** A handler ending with `b` stops the loop of kind `k`: a synchronous
      throw always does, a rejected promise only where it is awaited. */
  predicate Stops<V>(k: Kind, b: Behaviour<V>) {
    b.Throws? || (Awaits(k) && b.Rejects?)
  }

  /** The `for ... of` loop over the handlers `hs` of kind `k`. There is no
      try/catch around a handler call. */
  function Visit<H, V>(hs: seq<H>, k: Kind, behaviour: H -> Behaviour<V>): (p: Pass<H>)
    ensures p.invoked <= hs
    ensures p.outcome.Completed? <==> forall i :: 0 <= i < |hs| ==> !Stops(k, behaviour(hs[i]))
    ensures p.outcome.Completed? ==> p.invoked == hs
    ensures p.outcome.Failed? ==>
      && |p.invoked| > 0
      && p.outcome.culprit == p.invoked[|p.invoked| - 1]
      && Stops(k, behaviour(p.outcome.culprit))
    ensures forall i :: 0 <= i < |p.invoked| - 1 ==> !Stops(k, behaviour(p.invoked[i]))
    decreases |hs|
  {
    if hs == [] then Pass([], Completed)
    else if Stops(k, behaviour(hs[0])) then Pass([hs[0]], Failed(hs[0]))
    else
      var rest := Visit(hs[1..], k, behaviour);
      Pass([hs[0]] + rest.invoked, rest.outcome)
  }

  /** A dispatcher called by `useChat`: it reads the registry as it is at
      call time and runs the loop over the set of its own kind. */
  function Dispatch<H, V>(r: HandlersSets<H>, k: Kind, behaviour: H -> Behaviour<V>): (p: Pass<H>)
    ensures p.invoked <= r.Get(k)
    ensures p.outcome.Completed? ==> p.invoked == r.Get(k)
  {
    Visit(r.Get(k), k, behaviour)
  }

  /** The dispatcher loop written the way the source writes it, as an
      iteration that calls one handler per step and leaves at the first
      handler that stops it. */
  method DispatchLoop<H, V>(r: HandlersSets<H>, k: Kind, behaviour: H -> Behaviour<V>)
    returns (invoked: seq<H>, outcome: Outcome<H>)
    ensures Pass(invoked, outcome) == Dispatch(r, k, behaviour)
  {
    var hs := r.Get(k);
    invoked := [];
    var i := 0;
    while i < |hs|
      invariant 0 <= i <= |hs|
      invariant invoked == hs[..i]
      invariant forall j :: 0 <= j < i ==> !Stops(k, behaviour(hs[j]))
    {
      var h := hs[i];
      invoked := invoked + [h];
      if Stops(k, behaviour(h)) {
        assert invoked == hs[..i + 1];
        PassStopsAtFirstFailure(hs, k, behaviour, i);
        return invoked, Failed(h);
      }
      i := i + 1;
    }
    assert invoked == hs;
    outcome := Completed;
  }

  /** When no handler stops the pass, the dispatcher calls the whole set of
      its kind, in insertion order, and completes. */
  lemma DispatchCompletes<H, V>(r: HandlersSets<H>, k: Kind, behaviour: H -> Behaviour<V>)
    requires forall h :: h in r.Get(k) ==> !Stops(k, behaviour(h))
    ensures Dispatch(r, k, behaviour) == Pass(r.Get(k), Completed)
  {
  }

  /** When no handler stops the pass, every registered handler of the kind is
      called exactly once, in insertion order, and no other handler is. */
  lemma DispatchVisitsEachOnce<H, V>(r: HandlersSets<H>, k: Kind, behaviour: H -> Behaviour<V>)
    requires Valid(r)
    requires forall h :: h in r.Get(k) ==> !Stops(k, behaviour(h))
    ensures Dispatch(r, k, behaviour) == Pass(r.Get(k), Completed)
    ensures NoDup(Dispatch(r, k, behaviour).invoked)
  {
    ValidGet(r, k);
  }

  /** The pass of kind `k` depends on the set of kind `k` only: the other
      three sets are never read, so their handlers are never called. */
  lemma DispatchReadsOwnKindOnly<H, V>(r1: HandlersSets<H>, r2: HandlersSets<H>, k: Kind, behaviour: H -> Behaviour<V>)
    requires r1.Get(k) == r2.Get(k)
    ensures Dispatch(r1, k, behaviour) == Dispatch(r2, k, behaviour)
  {
  }

  /** Two behaviours that stop at the same handlers of `hs` and may differ in
      the values those handlers return. */
  ghost predicate SameStops<H, V>(hs: seq<H>, k: Kind, b1: H -> Behaviour<V>, b2: H -> Behaviour<V>) {
    forall i :: 0 <= i < |hs| ==> (Stops(k, b1(hs[i])) <==> Stops(k, b2(hs[i])))
  }

  /** The values handlers return never reach the dispatcher's result: in
      particular the provider's `onToolCall` hands no tool result back to
      `useChat`, whatever its handlers return. */
  lemma {:induction false} DispatchIgnoresReturnedValues<H, V>(hs: seq<H>, k: Kind, b1: H -> Behaviour<V>, b2: H -> Behaviour<V>)
    requires SameStops(hs, k, b1, b2)
    ensures Visit(hs, k, b1) == Visit(hs, k, b2)
    decreases |hs|
  {
    if hs != [] {
      assert Stops(k, b1(hs[0])) <==> Stops(k, b2(hs[0]));
      DispatchIgnoresReturnedValues(hs[1..], k, b1, b2);
    }
  }

  /** `onFinish` and `onError` do not await: a handler whose promise rejects
      does not keep the later handlers from being called. */
  lemma UnawaitedPassIgnoresRejection<H, V>(r: HandlersSets<H>, k: Kind, behaviour: H -> Behaviour<V>)
    requires k == OnFinish || k == OnError
    requires forall h :: h in r.Get(k) ==> !behaviour(h).Throws?
    ensures Dispatch(r, k, behaviour) == Pass(r.Get(k), Completed)
  {
  }

  /** A handler that stops the pass is the last one called: the handlers
      after it in the set are not called in this pass. */
  lemma {:induction false} PassStopsAtFirstFailure<H, V>(hs: seq<H>, k: Kind, behaviour: H -> Behaviour<V>, i: nat)
    requires i < |hs|
    requires Stops(k, behaviour(hs[i]))
    requires forall j :: 0 <= j < i ==> !Stops(k, behaviour(hs[j]))
    ensures Visit(hs, k, behaviour) == Pass(hs[..i + 1], Failed(hs[i]))
    decreases i
  {
    if i > 0 {
      PassStopsAtFirstFailure(hs[1..], k, behaviour, i - 1);
      assert [hs[0]] + hs[1..][..i] == hs[..i + 1];
    }
  }

  /** Every provider's `handlers` ref holds the module-level
      `initialHandlers` object. The refs are keyed by provider instance. */
  predicate AllInitial(refs: map<nat, ObjId>) {
    forall p :: p in refs ==> refs[p] == InitialHandlersId
  }

  /** `useRef(initialHandlers)` in a render of provider `p`: the first render
      creates the ref, holding `initialHandlers`; a later render finds the
      ref it created and leaves every ref as it is. */
  function UseRef(refs: map<nat, ObjId>, p: nat): (r: map<nat, ObjId>)
    ensures r.Keys == refs.Keys + {p}
    ensures p !in refs ==> r[p] == InitialHandlersId
    ensures forall q :: q in refs ==> r[q] == refs[q]
    ensures AllInitial(refs) ==> AllInitial(r)
  {
    if p in refs then refs else refs[p := InitialHandlersId]
  }

  /** The effect of provider `p` that runs on its mount and whenever its
      `value` changes: `handlers.current = initialHandlers`. Only `p`'s own
      ref is assigned. */
  function ResetOnValueChange(refs: map<nat, ObjId>, p: nat): (r: map<nat, ObjId>)
    requires p in refs
    ensures r.Keys == refs.Keys
    ensures r[p] == InitialHandlersId
    ensures forall q :: q in refs && q != p ==> r[q] == refs[q]
    ensures AllInitial(refs) ==> AllInitial(r)
  {
    refs[p := InitialHandlersId]
  }

  /** The assignment stores the object the ref already holds, so once every
      ref holds `initialHandlers` the reset changes no ref at all. */
  lemma ResetIsNoOp(refs: map<nat, ObjId>, p: nat)
    requires AllInitial(refs) && p in refs
    ensures ResetOnValueChange(refs, p) == refs
  {
  }
}

=== FILE: registry.dfy ===
/** The handler registry: the `HandlersSets` record of one insertion-ordered
    set of handlers per `useChat` callback name, and the single module-level
    `initialHandlers` instance every provider and consumer shares. */
module Registry {
  import opened OrderedSets

  /** The four callback names of `useChat` that the provider reserves. */
  datatype Kind = OnFinish | OnError | OnResponse | OnToolCall

  /** One set of handler identities per kind, each in iteration order. */
  datatype HandlersSets<H> = HandlersSets(
    onFinish: seq<H>,
    onError: seq<H>,
    onResponse: seq<H>,
    onToolCall: seq<H>)
  {
    /** The set that holds handlers of kind `k`. */
    function Get(k: Kind): seq<H> {
      match k
      case OnFinish => onFinish
      case OnError => onError
      case OnResponse => onResponse
      case OnToolCall => onToolCall
    }
  }

  /** Every one of the four sets is duplicate-free, as a JavaScript `Set` is. */
  ghost predicate Valid<H>(r: HandlersSets<H>) {
    && NoDup(r.onFinish)
    && NoDup(r.onError)
    && NoDup(r.onResponse)
    && NoDup(r.onToolCall)
  }

  /** Each set of a valid registry is duplicate-free. */
  lemma ValidGet<H>(r: HandlersSets<H>, k: Kind)
    requires Valid(r)
    ensures NoDup(r.Get(k))
  {
  }

  /** The registry is determined by its four sets. */
  lemma Extensionality<H>(r1: HandlersSets<H>, r2: HandlersSets<H>)
    requires forall k :: r1.Get(k) == r2.Get(k)
    ensures r1 == r2
  {
    assert r1.Get(OnFinish) == r2.Get(OnFinish);
    assert r1.Get(OnError) == r2.Get(OnError);
    assert r1.Get(OnResponse) == r2.Get(OnResponse);
    assert r1.Get(OnToolCall) == r2.Get(OnToolCall);
  }

  /** The identity of a `HandlersSets` object, as a ref or a context holds
      it. */
  type ObjId = nat

  /** The identity of the module-level `initialHandlers` object. It is the
      only `HandlersSets` object the program ever allocates. */
  const InitialHandlersId: ObjId := 0

  /** The module-level `initialHandlers` object: four empty sets. */
  function InitialHandlers<H>(): (r: HandlersSets<H>)
    ensures Valid(r)
    ensures forall k :: r.Get(k) == []
  {
    HandlersSets([], [], [], [])
  }
}

=== FILE: traces.dfy ===
/** Runs of a deterministic state machine over a sequence of events, stated
    once for any step function: the final state and one observation per
    event. */
module Traces {

  function Run<S, E, O>(step: (S, E) -> (S, O), s: S, t: seq<E>): (r: (S, seq<O>))
    ensures |r.1| == |t|
    ensures t == [] ==> r == (s, [])
    decreases |t|
  {
    if t == [] then (s, [])
    else
      var first := step(s, t[0]);
      var rest := Run(step, first.0, t[1..]);
      (rest.0, [first.1] + rest.1)
  }

  /** Running a non-empty trace is one step followed by the rest. */
  lemma RunCons<S, E, O>(step: (S, E) -> (S, O), s: S, e: E, t: seq<E>)
    ensures Run(step, s, [e] + t).0 == Run(step, step(s, e).0, t).0
    ensures Run(step, s, [e] + t).1 == [step(s, e).1] + Run(step, step(s, e).0, t).1
  {
    assert ([e] + t)[0] == e;
    assert ([e] + t)[1..] == t;
  }

  /** Running two traces one after the other is running their concatenation. */
  lemma {:induction false} RunAppend<S, E, O>(step: (S, E) -> (S, O), s: S, t1: seq<E>, t2: seq<E>)
    ensures Run(step, s, t1 + t2).0 == Run(step, Run(step, s, t1).0, t2).0
    ensures Run(step, s, t1 + t2).1 == Run(step, s, t1).1 + Run(step, Run(step, s, t1).0, t2).1
    decreases |t1|
  {
    if t1 == [] {
      assert t1 + t2 == t2;
    } else {
      var e, rest := t1[0], t1[1..];
      assert t1 == [e] + rest;
      assert t1 + t2 == [e] + (rest + t2);
      RunAppend(step, step(s, e).0, rest, t2);
      RunCons(step, s, e, rest + t2);
      RunCons(step, s, e, rest);
    }
  }

  /** A known first step: the run of `[e] + t` is that step followed by the
      run of `t` from the state it leads to. */
  lemma RunFirstStep<S, E, O>(step: (S, E) -> (S, O), s: S, e: E, t: seq<E>, s': S, o: O)
    requires step(s, e) == (s', o)
    ensures Run(step, s, [e] + t) == (Run(step, s', t).0, [o] + Run(step, s', t).1)
  {
    RunCons(step, s, e, t);
  }
}

=== FILE: use_ai_chat.dfy ===
/** The consumer side, `useAiChat`: the no-provider error, and the effect that
    registers the consumer's handlers together with the cleanup that deletes
    the handlers of the argument it is given. */
module Consumer {
  import opened Wrappers
  import opened OrderedSets
  import opened Registry

  /** The message of the error thrown outside a provider. */
  const NoProviderMessage: string := "useAiChat must be used within a AiChatProvider"

  /** The argument of `useAiChat`: any subset of the four handlers. */
  datatype HandlerArgs<H> = HandlerArgs(
    onFinish: Option<H>,
    onError: Option<H>,
    onResponse: Option<H>,
    onToolCall: Option<H>)
  {
    /** The handler supplied for kind `k`, if any. */
    function Supplied(k: Kind): Option<H> {
      match k
      case OnFinish => onFinish
      case OnError => onError
      case OnResponse => onResponse
      case OnToolCall => onToolCall
    }
  }

  /** The default argument `{}`: no handler at all. */
  function NoHandlers<H>(): (a: HandlerArgs<H>)
    ensures forall k :: a.Supplied(k) == None
  {
    HandlerArgs(None, None, None, None)
  }

  /** What the provider puts in the context: the chat returned by `useChat`
      and `handlers.current`, the reference to the registry object the
      consumers write to. */
  datatype ChatContext<C> = ChatContext(chat: C, handlers: ObjId)

  /** The render-time part of `useAiChat`: it fails with the no-provider
      message when there is no context, and otherwise returns the provider's
      chat. */
  function UseAiChat<C>(context: Option<ChatContext<C>>): (r: Result<C>)
    ensures r.Failure? <==> context.None?
    ensures r.Failure? ==> r.error == NoProviderMessage
    ensures r.Success? ==> r.value == context.value.chat
  {
    match context
    case None => Failure(NoProviderMessage)
    case Some(ctx) => Success(ctx.chat)
  }

  /** One `if (args.k) handlers.k.add(args.k)` of the effect, on the set of
      kind `k`. */
  function AddIfSupplied<H(==)>(s: seq<H>, o: Option<H>): (r: seq<H>)
    ensures o.Some? ==> o.value in r && s <= r
    ensures forall i :: 0 <= i < |r| ==> r[i] in s || o == Some(r[i])
    ensures o.Some? && o.value in s ==> r == s
    ensures o.None? ==> r == s
    ensures NoDup(s) ==> NoDup(r)
  {
    match o
    case None => s
    case Some(h) => Add(s, h)
  }

  /** One `if (args.k) handlers.k.delete(args.k)` of the cleanup, on the set
      of kind `k`. */
  function DeleteIfSupplied<H(==)>(s: seq<H>, o: Option<H>): (r: seq<H>)
    ensures o.Some? ==> o.value !in r && Subsequence(r, s)
    ensures o.Some? ==> forall i :: 0 <= i < |s| && s[i] != o.value ==> s[i] in r
    ensures forall i :: 0 <= i < |r| ==> r[i] in s
    ensures o.None? ==> r == s
    ensures NoDup(s) ==> NoDup(r)
  {
    match o
    case None => s
    case Some(h) => Delete(s, h)
  }

  /** The registry built field by field adds each supplied handler in the
      set of its own kind and nowhere else. */
  lemma AddEachKind<H>(r: HandlersSets<H>, a: HandlerArgs<H>, r': HandlersSets<H>)
    requires r'.onFinish == AddIfSupplied(r.onFinish, a.onFinish)
    requires r'.onError == AddIfSupplied(r.onError, a.onError)
    requires r'.onResponse == AddIfSupplied(r.onResponse, a.onResponse)
    requires r'.onToolCall == AddIfSupplied(r.onToolCall, a.onToolCall)
    ensures forall k :: r'.Get(k) == AddIfSupplied(r.Get(k), a.Supplied(k))
  {
    forall k ensures r'.Get(k) == AddIfSupplied(r.Get(k), a.Supplied(k)) {
      match k
      case OnFinish =>
      case OnError =>
      case OnResponse =>
      case OnToolCall =>
    }
  }

  /** The effect body: each supplied handler is added to the set of its own
      kind; a kind left out keeps its set. */
  function Mount<H(==)>(r: HandlersSets<H>, a: HandlerArgs<H>): (r': HandlersSets<H>)
    ensures forall k :: a.Supplied(k) == None ==> r'.Get(k) == r.Get(k)
    ensures forall k :: a.Supplied(k).Some? ==> r'.Get(k) == Add(r.Get(k), a.Supplied(k).value)
    ensures Valid(r) ==> Valid(r')
  {
    var r' := HandlersSets(
      AddIfSupplied(r.onFinish, a.onFinish),
      AddIfSupplied(r.onError, a.onError),
      AddIfSupplied(r.onResponse, a.onResponse),
      AddIfSupplied(r.onToolCall, a.onToolCall));
    AddEachKind(r, a, r');
    r'
  }

  /** The registry built field by field deletes each supplied handler in the
      set of its own kind and nowhere else. */
  lemma DeleteEachKind<H>(r: HandlersSets<H>, a: HandlerArgs<H>, r': HandlersSets<H>)
    requires r'.onFinish == DeleteIfSupplied(r.onFinish, a.onFinish)
    requires r'.onError == DeleteIfSupplied(r.onError, a.onError)
    requires r'.onResponse == DeleteIfSupplied(r.onResponse, a.onResponse)
    requires r'.onToolCall == DeleteIfSupplied(r.onToolCall, a.onToolCall)
    ensures forall k :: r'.Get(k) == DeleteIfSupplied(r.Get(k), a.Supplied(k))
  {
    forall k ensures r'.Get(k) == DeleteIfSupplied(r.Get(k), a.Supplied(k)) {
      match k
      case OnFinish =>
      case OnError =>
      case OnResponse =>
      case OnToolCall =>
    }
  }

  /** The cleanup the effect returns: it deletes the handlers of `a`, the
      values the captured args object holds when the cleanup runs, whether
      or not this consumer was the one that put them there. */
  function Cleanup<H(==)>(r: HandlersSets<H>, a: HandlerArgs<H>): (r': HandlersSets<H>)
    ensures forall k :: a.Supplied(k) == None ==> r'.Get(k) == r.Get(k)
    ensures forall k :: a.Supplied(k).Some? ==> r'.Get(k) == Delete(r.Get(k), a.Supplied(k).value)
    ensures forall k :: a.Supplied(k).Some? ==> a.Supplied(k).value !in r'.Get(k)
    ensures Valid(r) ==> Valid(r')
  {
    var r' := HandlersSets(
      DeleteIfSupplied(r.onFinish, a.onFinish),
      DeleteIfSupplied(r.onError, a.onError),
      DeleteIfSupplied(r.onResponse, a.onResponse),
      DeleteIfSupplied(r.onToolCall, a.onToolCall));
    DeleteEachKind(r, a, r');
    r'
  }

  /** No supplied handler is registered under its kind yet. */
  ghost predicate Fresh<H>(r: HandlersSets<H>, a: HandlerArgs<H>) {
    forall k :: a.Supplied(k).Some? ==> a.Supplied(k).value !in r.Get(k)
  }

  /** Mount followed by its cleanup restores the registry exactly, order
      included, when none of the handlers was registered before. */
  lemma {:induction false} CleanupUndoesMount<H>(r: HandlersSets<H>, a: HandlerArgs<H>)
    requires Fresh(r, a)
    ensures Cleanup(Mount(r, a), a) == r
  {
    var r' := Cleanup(Mount(r, a), a);
    forall k ensures r'.Get(k) == r.Get(k) {
      if a.Supplied(k).Some? {
        DeleteUndoesAdd(r.Get(k), a.Supplied(k).value);
      }
    }
    Extensionality(r', r);
  }

  /** A handler that was already registered before the mount is gone after
      the cleanup all the same: the cleanup does not restore what was there. */
  lemma CleanupRemovesPreexisting<H>(r: HandlersSets<H>, a: HandlerArgs<H>, k: Kind, h: H)
    requires a.Supplied(k) == Some(h) && h in r.Get(k)
    ensures h in Mount(r, a).Get(k)
    ensures Mount(r, a).Get(k) == r.Get(k)
    ensures h !in Cleanup(Mount(r, a), a).Get(k)
  {
  }
}

=== FILE: wrappers.dfy ===
/** An optional value (a handler slot that may be left out), and a
    value-or-error-message result (a value, or the message of a thrown
    error). */
module Wrappers {

  datatype Option<+T> = None | Some(value: T)

  datatype Result<+R> = Success(value: R) | Failure(error: string)
}
